=== FILE: README.md ===
# WhatFridgeRecipe core, modelled in Dafny

WhatFridgeRecipe is a single-page cooking assistant. The user photographs the fridge. An image model lists the visible ingredients. A text model proposes recipes from those ingredients plus a manually kept pantry, under an optional dietary filter. The user can then cook a recipe step by step, have a step read aloud, keep favourites, and collect missing ingredients on a shopping list.

This project models the logic of that application as pure Dafny functions over immutable data:

- `Types` (`types.dfy`): the records of `types.ts` (`Ingredient`, `Recipe`, `DietaryRestriction`, `AppState`).
- `App` (`app.dfy`): every `setState` reducer of `App.tsx` except the load of the stored lists at startup. The two asynchronous handlers (`handleScan`, `handleFilterChange`/`updateRecipesWithFilter`) are each split into a *begin* step and a *complete* step. The complete step receives the remote calls' outcomes as `Settled` values (fulfilled with a value, or rejected). `Apply`/`ApplyAll` fold any sequence of updates; the fold is used to prove that the shopping list stays duplicate-free and favourite ids stay unique.
- `StepByStep` (`stepbystep.dfy`): the local state of `StepByStepMode.tsx`, covering step navigation, the primary button, narration start and end, the substitution panel toggle and the add-to-list button.
- `Gemini` (`gemini.dfy`): the pure parts of `services/geminiService.ts`, namely:
  - the comma-separated ingredient reply parser;
  - the ingredient pool and the prompt's style word;
  - placeholder image tagging;
  - the speech payload fallback.
- `Pcm` (`pcm.dfy`): `playPCM` and its `decodeAudioData`. It reads little-endian 16-bit samples, splits them per channel, scales them by 1/32768 and builds the buffer at 24000 Hz mono. The two exceptions `decodeAudioData` can raise are modelled as error results: an odd byte count and an empty buffer.
- `PantryView` (`pantry_view.dfy`): the pantry form's trimming submit and the per-chip remove button.
- `FridgeScanner` (`fridge_scanner.dfy`): the cut of the reader's data URL (`split(',')[1]`) that yields the base64 payload.
- `Text`, `Seqs` and `Common`: the JavaScript built-ins the code relies on, stated once:
  - `trim`, whose whitespace set is ECMAScript WhiteSpace plus LineTerminator;
  - `split` on one character, including `"".split(",") == [""]`;
  - `join`;
  - value `filter`.

Three behaviours of the code are easy to miss:

- An empty or missing reply from the image model is an empty ingredient list (`ParseIngredientList`), not a distinct analysis failure.
- A speech reply without audio is the empty string (`SpeechPayload`), not a synthesis failure. Playing the empty string does nothing (`PlayPcm`).
- A failed filter change only drops the busy flag; it shows no notice.

## Model

| member | source | states |
|---|---|---|
| App.Initial | App.tsx:13-22 | the application starts idle, unfiltered, with no selection and every list empty |
| App.AddToShoppingList | App.tsx:94-99 | an item already listed leaves the state unchanged; a new one is appended; membership becomes old-or-item; nothing else changes; a duplicate-free list stays duplicate-free |
| App.AddToShoppingListIdempotent | App.tsx:94-99 | adding the same item twice equals adding it once |
| App.RemoveFromShoppingList | App.tsx:211 | the item is gone, every other item keeps its count and relative order, nothing else changes |
| App.ClearShoppingList | App.tsx:212 | the shopping list is empty and no other field changes |
| App.ToggleFavorite | App.tsx:101-111 | a favourite id is present afterwards exactly when it was absent before; other recipes stay favourite exactly when they were; removal keeps order and the number of copies of every other recipe; addition appends; unique ids are preserved |
| App.WithoutId | App.tsx:106 | no recipe with the id remains; every recipe with another id keeps its number of copies; order is kept |
| App.WithoutIdKeepsUnique | App.tsx:106 | filtering out an id keeps the remaining ids pairwise distinct |
| App.WithoutAbsentId | App.tsx:106 | filtering an id that no recipe carries returns the list unchanged |
| App.WithoutIdAppended | App.tsx:104-108 | filtering out the id of a just-appended recipe restores the list it was appended to |
| App.ToggleFavoriteTwice | App.tsx:101-111 | favouriting a new recipe and toggling it again restores the state exactly |
| App.AddPantryItem | App.tsx:201 | the pantry grows by one, the old entries stay in place, the item is last, duplicates are allowed |
| App.RemovePantryItem | App.tsx:202 | the item is gone, every other item keeps its count and relative order, nothing else changes |
| App.ClearPantry | App.tsx:203 | the pantry is empty and no other field changes |
| App.SelectRecipe | App.tsx:146 | the chosen recipe becomes the selection and nothing else changes |
| App.CloseRecipe | App.tsx:221 | the selection is cleared and nothing else changes |
| App.SelectThenClose | App.tsx:217-224 | opening a recipe and closing it returns to the state before |
| App.BeginScan | App.tsx:52-56 | the busy flag is raised; the request keeps the pantry and filter of the invoking state |
| App.ScanRequest | App.tsx:55-56 | recipes are requested for the analysed ingredients with the captured pantry and filter |
| App.CompleteScan | App.tsx:54-67 | the busy flag always drops; both calls succeeding commit the ingredients and the image-tagged recipes together; any failure leaves them untouched; no other field changes |
| App.ScanCommitsAllOrNothing | App.tsx:54-67 | after a scan, the ingredients and recipes are either both unchanged or both this scan's results |
| App.ScanCommitsParsedReply | App.tsx:55-59 | a successful scan shows exactly the names parsed from the image model's reply, all clean, and none for an empty or missing reply |
| App.ScanRoundTrip | App.tsx:52-67 | a scan from an idle state ends idle, and a failed scan leaves the state exactly as it was |
| App.ScanExample | App.tsx:52-62 | scanning eggs and milk with flour in the pantry requests recipes for eggs, milk and flour in "any style" and shows them |
| App.BeginFilterChange | App.tsx:70-92 | the filter is always set; a request leaves exactly when ingredients were scanned; it carries those ingredients, the pantry and the new filter; the busy flag rises only then |
| App.CompleteFilterChange | App.tsx:74-84 | the busy flag drops; success replaces only the recipes (image-tagged); failure keeps them; the scanned ingredients never change |
| App.FilterWithoutScanExample | App.tsx:87-92 | with nothing scanned, changing the filter only records it |
| App.Apply | App.tsx:53-212 | dispatches each of the thirteen state updates of the application to its reducer |
| App.ApplyKeepsConsistent | App.tsx:94-111 | every update keeps the shopping list duplicate-free and favourite ids unique |
| App.ApplyAllKeepsConsistent | App.tsx:94-111 | any sequence of updates keeps both invariants |
| App.ReachableStatesConsistent | App.tsx:13-111 | every state reachable from the initial state satisfies both invariants |
| Types.RestrictionName | types.ts:26 | each restriction is spelled as its literal, non-empty, and only the absence of a restriction is spelled "None" |
| Types.ParseRestriction | types.ts:26 | a parsed restriction's name is the string parsed |
| Types.RestrictionNameRoundTrip | types.ts:26 | every restriction's name parses back to that restriction, so the names are distinct |
| Types.HasId | App.tsx:103 | some recipe in the list carries the id; it decides the favourite toggle's branch and the card's favourite flag (App.tsx:145) |
| Seqs.Without | App.tsx:202 | the value is gone, every other value keeps its count, the result is a subsequence of the input |
| Seqs.WithoutAbsent | App.tsx:202 | removing a value that does not occur changes nothing |
| Seqs.WithoutKeepsNoDuplicates | App.tsx:211 | removal keeps a duplicate-free list duplicate-free |
| Text.Trim | services/geminiService.ts:28 | the result has no whitespace at either end, and it is empty exactly when the input is all whitespace |
| Text.TrimIsInfix | services/geminiService.ts:28 | trimming removes only a whitespace prefix and a whitespace suffix |
| Text.TrimOfDecomposition | services/geminiService.ts:28 | whitespace around a trimmed non-empty core trims to exactly that core |
| Text.TrimIdempotent | components/PantryView.tsx:16-17 | trimming twice equals trimming once |
| Text.Split | services/geminiService.ts:28 | there is at least one piece, no piece contains the separator, and joining the pieces with the separator gives the input back |
| Text.SplitJoin | services/geminiService.ts:28 | splitting undoes joining for separator-free pieces |
| Text.Join | services/geminiService.ts:35 | the pieces with the separator between neighbours, "" for no pieces; it is the reference definition that `Text.Split` and `Text.SplitJoin` are stated against |
| Gemini.ReplyText | services/geminiService.ts:27 | a missing reply reads as the empty string; a present one is used as is |
| Gemini.TrimAll | services/geminiService.ts:28 | every piece is trimmed in place |
| Gemini.DropEmpty | services/geminiService.ts:28 | exactly the non-empty pieces remain, each with its multiplicity, in order |
| Gemini.ParseIngredientList | services/geminiService.ts:27-28 | every parsed name is non-empty, comma-free and trimmed; the names are exactly the non-empty trimmed pieces, each as often as it occurs, in reply order; an empty or missing reply yields no ingredients |
| Gemini.ParseJoinedList | services/geminiService.ts:27-35 | a list of clean names joined with ", " parses back to exactly that list |
| Gemini.JoinCommaSpace | services/geminiService.ts:35 | joining with ", " equals joining with "," after prefixing every later piece with a space |
| Gemini.Pool | services/geminiService.ts:33 | the fridge items come first, then the pantry items, with duplicates kept (length, positions, multiset) |
| Gemini.PromptIngredients | services/geminiService.ts:33-35 | the prompt's ingredient list is empty for an empty pool and, for clean names, parses back to exactly the pool |
| Gemini.StyleWord | services/geminiService.ts:36 | "any style" exactly for no restriction; otherwise the restriction's own name |
| Gemini.ImageUri | services/geminiService.ts:88 | the recipe id can be read back from its placeholder URI |
| Gemini.ImageUriInjective | services/geminiService.ts:88 | two ids share an image exactly when they are equal |
| Gemini.TagImages | services/geminiService.ts:86-89 | recipes keep position and every field except the image, which is derived from the id |
| Gemini.TagImagesIdempotent | services/geminiService.ts:86-89 | tagging already-tagged recipes changes nothing |
| Gemini.SpeechPayload | services/geminiService.ts:108-109 | the payload is empty exactly when the audio is missing or empty; otherwise it is the audio data |
| Gemini.NarrationPrompt | services/geminiService.ts:97 | the prompt is "Say clearly: " followed by the step text unchanged |
| Pcm.Int16LE | services/geminiService.ts:124 | two bytes give a signed 16-bit value congruent to lo + 256·hi modulo 65536 |
| Pcm.Int16RoundTrip | services/geminiService.ts:124 | reading a sample's two bytes gives the sample |
| Pcm.BytesRoundTrip | services/geminiService.ts:124 | re-encoding a read sample gives its two bytes |
| Pcm.Samples | services/geminiService.ts:124 | an even byte stream gives half as many 16-bit samples |
| Pcm.DecodeEncode | services/geminiService.ts:124 | decoding the encoding of 16-bit samples gives the samples |
| Pcm.EncodeDecode | services/geminiService.ts:124 | encoding the samples of an even byte stream gives the stream |
| Pcm.Normalize | services/geminiService.ts:130 | the scaled value times 32768 is the sample, and it lies in [-1, 1) |
| Pcm.Deinterleave | services/geminiService.ts:125-130 | there is one list per channel, each with floor(samples / channels) frames |
| Pcm.InterleaveDeinterleave | services/geminiService.ts:125-130 | splitting whole frames into channels and interleaving them gives the stream back |
| Pcm.DeinterleaveInterleave | services/geminiService.ts:125-130 | interleaving equal-length channels and splitting again gives the channels back |
| Pcm.NormalizeAll | services/geminiService.ts:130 | every sample is scaled by 1/32768 in place |
| Pcm.DecodeAudioData | services/geminiService.ts:123-134 | it throws for exactly an odd byte count, and for exactly zero channels or zero frames; otherwise it yields the given rate and one list per channel |
| Pcm.DecodedShape | services/geminiService.ts:125-132 | a decoded buffer has at least one frame per channel, floor(samples / channels) of them, and every value in [-1, 1) |
| Pcm.FillChannels | services/geminiService.ts:127-132 | the nested channel and frame loops fill exactly the deinterleaved, scaled channel lists |
| Pcm.DecodedValue | services/geminiService.ts:130 | buffer value (channel c, frame i) is sample i·n + c scaled by 1/32768 |
| Pcm.MonoDecode | services/geminiService.ts:135-136 | mono decoding at 24000 Hz holds every sample in order, scaled |
| Pcm.DecodeExample | services/geminiService.ts:123-136 | bytes 00 40 00 C0 decode to 0.5 and -0.5 |
| Pcm.PlayPcm | services/geminiService.ts:112-141 | an empty payload is skipped, and only an empty one; whole samples play every sample in order, scaled, mono at 24000 Hz; an odd or empty byte stream throws |
| StepByStep.Opened | components/StepByStepMode.tsx:19-21 | the view opens on the first step, silent, with no substitution panel |
| StepByStep.Next | components/StepByStepMode.tsx:23-27 | it advances by one exactly when a later step exists, and otherwise stays |
| StepByStep.Prev | components/StepByStepMode.tsx:29-33 | it goes back by one exactly when past the first step, and otherwise stays |
| StepByStep.PrevUndoesNext | components/StepByStepMode.tsx:23-33 | a step forward that happened is undone by a step back |
| StepByStep.NextUndoesPrev | components/StepByStepMode.tsx:23-33 | a step back that happened is undone by a step forward |
| StepByStep.NavigationStaysInRange | components/StepByStepMode.tsx:23-33 | any sequence of presses from a step in range stays within 0..max(0, steps-1) and changes only the step |
| StepByStep.OpenedStaysInRange | components/StepByStepMode.tsx:19-33 | a freshly opened view never leaves the recipe's steps |
| StepByStep.PressPrimary | components/StepByStepMode.tsx:171-177 | it finishes exactly on the last step of a non-empty recipe; otherwise it acts as Next |
| StepByStep.PrimaryFinishesOrAdvances | components/StepByStepMode.tsx:171-177 | within range, the primary button either finishes or moves exactly one step on |
| StepByStep.Finish | components/StepByStepMode.tsx:172 | finishing clears only the application's selection |
| StepByStep.ApplyPrimary | components/StepByStepMode.tsx:171-177 | on the last step of a non-empty recipe, and only there, the application closes the recipe and the view goes away; otherwise the application is untouched and the view moves as Next |
| StepByStep.StepText | components/StepByStepMode.tsx:39 | the current step's text, or "undefined" past the end |
| StepByStep.BeginSpeak | components/StepByStepMode.tsx:35-39 | while narrating, a press does nothing; otherwise the flag rises and the current step is sent with the narration prefix |
| StepByStep.EndSpeak | components/StepByStepMode.tsx:43-45 | the speaking flag drops whatever the outcome |
| StepByStep.SpeakRoundTrip | components/StepByStepMode.tsx:35-46 | a narration from an idle view leaves the view as it was |
| StepByStep.ShowsSubstitutionsButton | components/StepByStepMode.tsx:92-102 | the substitution button exists only for a missing ingredient with at least one alternative |
| StepByStep.PanelOpen | components/StepByStepMode.tsx:92-112 | the panel shows for a missing ingredient whose name is the open name and that has an alternatives list |
| StepByStep.PressSubstitutions | components/StepByStepMode.tsx:102-112 | without a button nothing changes; with one, a press flips whether that ingredient's panel is open, and changes nothing but the open name |
| StepByStep.ToggleSubstitutions | components/StepByStepMode.tsx:104 | the open name closes; any other name opens in its place; all open panels share the pressed name |
| StepByStep.ToggleSubstitutionsTwice | components/StepByStepMode.tsx:104 | two presses of the same button from a closed state or that button's open state restore the view |
| StepByStep.AddButtonDisabled | components/StepByStepMode.tsx:83-97 | the add-to-list button is disabled exactly when the ingredient's name is on the shopping list |
| StepByStep.PressAddToList | components/StepByStepMode.tsx:92-97 | an ingredient not marked missing has no button, so nothing changes; a disabled button does nothing; for a missing ingredient the name is on the list afterwards and the effect is the application's add |
| StepByStep.PressAddToListTwice | components/StepByStepMode.tsx:83-97 | after one press a missing ingredient's button is disabled, and for any ingredient further presses change nothing |
| PantryView.HandleSubmit | components/PantryView.tsx:14-20 | a value is added exactly when the input is not all whitespace; it is the trimmed input, and the field clears; a refused input stays in the field |
| PantryView.Submit | components/PantryView.tsx:14-20 | an accepted submission grows the pantry by exactly the trimmed input; a blank one changes nothing |
| PantryView.SubmitTwice | components/PantryView.tsx:14-20 | submitting again right after an accepted submission adds nothing |
| PantryView.PressRemove | components/PantryView.tsx:72 | every copy of the chip's value leaves the pantry, which shrinks by that value's count |
| PantryView.RemovedCount | App.tsx:202 | deleting every copy of a value shortens the list by that value's count |
| FridgeScanner.HandleReaderResult | components/FridgeScanner.tsx:15-21 | the scan is skipped exactly for an empty or absent result; the payload is undefined exactly when there is no comma; it never contains a comma |
| FridgeScanner.PayloadBetweenCommas | components/FridgeScanner.tsx:19 | the payload is the text between the first and second comma |
| FridgeScanner.DataUrlPayload | components/FridgeScanner.tsx:18-20 | for a data URL whose payload has no comma, exactly that payload is passed on |
| FridgeScanner.DataUrlExample | components/FridgeScanner.tsx:18-20 | a JPEG data URL passes on its base64 data |

## Left out

- The remote model calls (image analysis, recipe generation, speech synthesis) are not modelled. Their outcomes enter as parameters: the image model's reply text (parsed by `Gemini.ParseIngredientList`), the parsed recipe list, the audio payload, or `Rejected`. `App.CompleteScan` takes the parsed ingredient list; `App.ScanCommitsParsedReply` connects it to the reply parser.
- `JSON.parse` of the recipe reply and the response schema are not modelled. `CompleteScan` and `CompleteFilterChange` receive the already-parsed recipes; a parse failure is a `Rejected` outcome.
- The prompt prose apart from the ingredient list, the style word and the narration prefix is not modelled, nor are the model names and the voice name.
- Persistence to `localStorage` is I/O and is not modelled: neither the writes on change nor the startup reducer that loads the stored pantry, favourites and shopping list. `App.Initial` is the state before loading.
- Base64 decoding (`atob`) is not modelled, including the exception it raises for a malformed payload. `PlayPcm` takes the decoded bytes as a parameter next to the payload.
- Audio output (`AudioContext`, source start, overlapping playback) is not modelled. The model stops at the buffer that would be played.
- `Int16Array` uses the host's byte order. The model assumes a little-endian host; on a big-endian host the samples would be byte-swapped.
- `createBuffer` also rejects sample rates outside its supported range. Every call in the source uses 24000 Hz, so `DecodeAudioData` does not model that error.
- `decodeAudioData` divides with a floating-point `frameCount`. A trailing partial frame is written past the channel's end and silently dropped. The model drops it directly (`Deinterleave` keeps floor(samples / channels) frames).
- Interleaving of asynchronous callbacks, and the stale `state` closures the handlers read, are not modelled. A completion applies to the state current when it settles, and it uses the pantry and filter captured when it began (`App.ScanTicket`).
- Rendering is not modelled: the progress bar, the step counter text, the tab bar, the `Escape` key listener, drag-and-drop state, the file input, `alert` and `console` logging.
- Recipe `calories` is a JavaScript number; it is modelled as an integer and never computed with.
- The application tab (`activeTab`) is presentation state with no logic. It is not modelled.

=== FILE: app.dfy ===
/** The application-state reducers of `App.tsx`. Each `setState(prev => ...)` becomes a
    function from the previous state to the next. The two asynchronous handlers are
    split into a step that starts the request and a step that applies its settled
    outcome; the remote calls' results enter as `Settled` values. */
module App {
  import opened Common
  import opened Types
  import Seqs
  import Gemini

  /** The state the application starts with (before the stored lists are loaded). */
  function Initial(): (s: AppState)
    ensures s.filter == NoRestriction && !s.isScanning && s.selectedRecipe.None?
    ensures s.scannedIngredients == [] && s.recipes == [] && s.pantryIngredients == []
    ensures s.favoriteRecipes == [] && s.shoppingList == []
  {
    AppState([], [], [], [], [], NoRestriction, false, None)
  }

  /** The lists the application treats as sets keep that shape. */
  predicate Consistent(s: AppState) {
    Seqs.NoDuplicates(s.shoppingList) && UniqueIds(s.favoriteRecipes)
  }

  // ---------------------------------------------------------------- shopping list

  /** `handleAddToShoppingList`: an item already on the list leaves the state as it is;
      a new item goes at the end. */
  function AddToShoppingList(s: AppState, item: string): (r: AppState)
    ensures item in r.shoppingList
    ensures forall x :: x in r.shoppingList <==> x in s.shoppingList || x == item
    ensures item in s.shoppingList ==> r == s
    ensures item !in s.shoppingList ==> r.shoppingList == s.shoppingList + [item]
    ensures r == s.(shoppingList := r.shoppingList)
    ensures Seqs.NoDuplicates(s.shoppingList) ==> Seqs.NoDuplicates(r.shoppingList)
  {
    if item in s.shoppingList then s
    else s.(shoppingList := s.shoppingList + [item])
  }

  /** Adding the same item twice is adding it once. */
  lemma AddToShoppingListIdempotent(s: AppState, item: string)
    ensures AddToShoppingList(AddToShoppingList(s, item), item) == AddToShoppingList(s, item)
  {
  }

  /** The shopping list's `onRemove`: every copy of the item goes, the rest keep their order. */
  function RemoveFromShoppingList(s: AppState, item: string): (r: AppState)
    ensures item !in r.shoppingList
    ensures forall x :: x != item ==> multiset(r.shoppingList)[x] == multiset(s.shoppingList)[x]
    ensures Seqs.IsSubsequence(r.shoppingList, s.shoppingList)
    ensures r == s.(shoppingList := r.shoppingList)
  {
    s.(shoppingList := Seqs.Without(s.shoppingList, item))
  }

  /** The shopping list's `onClear`. */
  function ClearShoppingList(s: AppState): (r: AppState)
    ensures r.shoppingList == [] && r == s.(shoppingList := [])
  {
    s.(shoppingList := [])
  }

  // ---------------------------------------------------------------- favourites

  /** `toggleFavorite`: a recipe whose id is already a favourite removes every favourite
      with that id; otherwise the recipe is appended. Other favourites are untouched and
      keep their order. */
  function ToggleFavorite(s: AppState, recipe: Recipe): (r: AppState)
    ensures HasId(r.favoriteRecipes, recipe.id) <==> !HasId(s.favoriteRecipes, recipe.id)
    ensures forall x: Recipe :: x.id != recipe.id ==> (x in r.favoriteRecipes <==> x in s.favoriteRecipes)
    ensures HasId(s.favoriteRecipes, recipe.id) ==>
      && Seqs.IsSubsequence(r.favoriteRecipes, s.favoriteRecipes)
      && forall x: Recipe :: x.id != recipe.id ==>
           multiset(r.favoriteRecipes)[x] == multiset(s.favoriteRecipes)[x]
    ensures !HasId(s.favoriteRecipes, recipe.id) ==>
      r.favoriteRecipes == s.favoriteRecipes + [recipe]
    ensures r == s.(favoriteRecipes := r.favoriteRecipes)
    ensures UniqueIds(s.favoriteRecipes) ==> UniqueIds(r.favoriteRecipes)
  {
    if HasId(s.favoriteRecipes, recipe.id) then
      assert UniqueIds(s.favoriteRecipes) ==> UniqueIds(WithoutId(s.favoriteRecipes, recipe.id)) by {
        if UniqueIds(s.favoriteRecipes) { WithoutIdKeepsUnique(s.favoriteRecipes, recipe.id); }
      }
      s.(favoriteRecipes := WithoutId(s.favoriteRecipes, recipe.id))
    else
      var favs := s.favoriteRecipes + [recipe];
      assert favs[|favs| - 1] == recipe;
      s.(favoriteRecipes := favs)
  }

  /** `rs.filter(r => r.id !== id)` */
  function WithoutId(rs: seq<Recipe>, id: string): (r: seq<Recipe>)
    ensures !HasId(r, id)
    ensures forall x: Recipe :: x in r <==> x in rs && x.id != id
    ensures forall x: Recipe :: x.id != id ==> multiset(r)[x] == multiset(rs)[x]
    ensures Seqs.IsSubsequence(r, rs)
  {
    if |rs| == 0 then []
    else
      var tail := WithoutId(rs[1..], id);
      assert rs == [rs[0]] + rs[1..];
      if rs[0].id == id then tail
      else
        assert ([rs[0]] + tail)[1..] == tail;
        [rs[0]] + tail
  }

  /** Filtering out an id keeps the remaining ids distinct. */
  lemma {:induction false} WithoutIdKeepsUnique(rs: seq<Recipe>, id: string)
    requires UniqueIds(rs)
    ensures UniqueIds(WithoutId(rs, id))
    decreases |rs|
  {
    if |rs| > 0 {
      var tail := WithoutId(rs[1..], id);
      assert UniqueIds(rs[1..]);
      WithoutIdKeepsUnique(rs[1..], id);
      if rs[0].id != id {
        forall j | 0 <= j < |tail| ensures tail[j].id != rs[0].id {
          assert tail[j] in rs[1..];
          var k :| 0 <= k < |rs[1..]| && rs[1..][k] == tail[j];
          assert rs[k + 1] == tail[j];
        }
        ConsKeepsUnique(rs[0], tail);
      }
    }
  }

  lemma ConsKeepsUnique(x: Recipe, rs: seq<Recipe>)
    requires UniqueIds(rs) && !HasId(rs, x.id)
    ensures UniqueIds([x] + rs)
  {
    var r := [x] + rs;
    forall i, j | 0 <= i < j < |r| ensures r[i].id != r[j].id {
      assert r[j] == rs[j - 1];
      if i > 0 {
        assert r[i] == rs[i - 1];
      }
    }
  }

  /** Removing an id no favourite carries changes nothing. */
  lemma {:induction false} WithoutAbsentId(rs: seq<Recipe>, id: string)
    requires !HasId(rs, id)
    ensures WithoutId(rs, id) == rs
    decreases |rs|
  {
    if |rs| > 0 {
      assert !HasId(rs[1..], id) by {
        forall j | 0 <= j < |rs[1..]| ensures rs[1..][j].id != id {
          assert rs[1..][j] == rs[j + 1];
        }
      }
      WithoutAbsentId(rs[1..], id);
      assert rs[0].id != id;
      assert rs == [rs[0]] + rs[1..];
    }
  }

  /** Favouriting a recipe that is not a favourite, then toggling it again, restores
      the favourites exactly. */
  lemma ToggleFavoriteTwice(s: AppState, recipe: Recipe)
    requires !HasId(s.favoriteRecipes, recipe.id)
    ensures ToggleFavorite(ToggleFavorite(s, recipe), recipe) == s
  {
    var favs := s.favoriteRecipes + [recipe];
    assert favs[|favs| - 1] == recipe;
    WithoutIdAppended(s.favoriteRecipes, recipe);
  }

  lemma {:induction false} WithoutIdAppended(rs: seq<Recipe>, recipe: Recipe)
    requires !HasId(rs, recipe.id)
    ensures WithoutId(rs + [recipe], recipe.id) == rs
    decreases |rs|
  {
    if |rs| == 0 {
      assert [] + [recipe] == [recipe];
      assert [recipe][1..] == [];
    } else {
      assert (rs + [recipe])[1..] == rs[1..] + [recipe];
      WithoutIdAppended(rs[1..], recipe);
      assert rs[0].id != recipe.id;
      assert rs == [rs[0]] + rs[1..];
    }
  }

  // ---------------------------------------------------------------- pantry

  /** The pantry view's `onAdd`: appended as given, no de-duplication. */
  function AddPantryItem(s: AppState, item: string): (r: AppState)
    ensures |r.pantryIngredients| == |s.pantryIngredients| + 1
    ensures r.pantryIngredients[..|s.pantryIngredients|] == s.pantryIngredients
    ensures r.pantryIngredients[|s.pantryIngredients|] == item
    ensures r == s.(pantryIngredients := r.pantryIngredients)
  {
    s.(pantryIngredients := s.pantryIngredients + [item])
  }

  /** The pantry view's `onRemove`: every copy of the item goes, the rest keep their order. */
  function RemovePantryItem(s: AppState, item: string): (r: AppState)
    ensures item !in r.pantryIngredients
    ensures forall x :: x != item ==>
      multiset(r.pantryIngredients)[x] == multiset(s.pantryIngredients)[x]
    ensures Seqs.IsSubsequence(r.pantryIngredients, s.pantryIngredients)
    ensures r == s.(pantryIngredients := r.pantryIngredients)
  {
    s.(pantryIngredients := Seqs.Without(s.pantryIngredients, item))
  }

  /** The pantry view's `onClear`. */
  function ClearPantry(s: AppState): (r: AppState)
    ensures r.pantryIngredients == [] && r == s.(pantryIngredients := [])
  {
    s.(pantryIngredients := [])
  }

  // ---------------------------------------------------------------- selection

  /** A recipe card's `onSelect`: opens step-by-step mode on that recipe. */
  function SelectRecipe(s: AppState, recipe: Recipe): (r: AppState)
    ensures r.selectedRecipe == Some(recipe)
    ensures r == s.(selectedRecipe := Some(recipe))
  {
    s.(selectedRecipe := Some(recipe))
  }

  /** Step-by-step mode's `onClose`. */
  function CloseRecipe(s: AppState): (r: AppState)
    ensures r.selectedRecipe.None?
    ensures r == s.(selectedRecipe := None)
  {
    s.(selectedRecipe := None)
  }

  /** Selecting and then closing touches nothing but the selection. */
  lemma SelectThenClose(s: AppState, recipe: Recipe)
    requires s.selectedRecipe.None?
    ensures CloseRecipe(SelectRecipe(s, recipe)) == s
  {
  }

  // ---------------------------------------------------------------- scanning

  /** What `handleScan` holds on to while its requests are outstanding: the pantry and
      filter of the state it was invoked from. */
  datatype ScanTicket = ScanTicket(pantry: seq<string>, filter: DietaryRestriction)

  /** The first update of `handleScan`: the busy flag goes up. */
  function BeginScan(s: AppState): (r: (AppState, ScanTicket))
    ensures r.0 == s.(isScanning := true)
    ensures r.1.pantry == s.pantryIngredients && r.1.filter == s.filter
  {
    (s.(isScanning := true), ScanTicket(s.pantryIngredients, s.filter))
  }

  /** The recipe request a scan issues once the image is analysed: the analysed
      ingredients with the pantry and filter captured when the scan began. */
  function ScanRequest(ticket: ScanTicket, ingredients: seq<string>): (q: Gemini.RecipeRequest)
    ensures q.fridge == ingredients && q.pantry == ticket.pantry && q.filter == ticket.filter
  {
    Gemini.RecipeRequest(ingredients, ticket.pantry, ticket.filter)
  }

  /** The end of `handleScan`, applied to the state current at that moment. If the
      analysis fails no recipe request is made; if both calls succeed the ingredients
      and the tagged recipes are committed together; in every case the busy flag drops
      and no other field changes. `generated` is the parsed reply to the recipe
      request, and is only consulted after a successful analysis. `ticket` is not
      read: it only names the request (`ScanRequest(ticket, …)`) that `generated`
      answers, so that an update sequence records which scan it completes. */
  function CompleteScan(s: AppState, ticket: ScanTicket, analysed: Settled<seq<string>>,
                        generated: Settled<seq<Recipe>>): (r: AppState)
    ensures !r.isScanning
    ensures analysed.Fulfilled? && generated.Fulfilled? ==>
      && r.scannedIngredients == analysed.value
      && r.recipes == Gemini.TagImages(generated.value)
    ensures analysed.Rejected? || generated.Rejected? ==>
      r.scannedIngredients == s.scannedIngredients && r.recipes == s.recipes
    ensures r == s.(scannedIngredients := r.scannedIngredients, recipes := r.recipes,
                    isScanning := false)
  {
    match analysed
    case Rejected => s.(isScanning := false)
    case Fulfilled(ingredients) =>
      match generated
      case Rejected => s.(isScanning := false)
      case Fulfilled(raw) =>
        s.(scannedIngredients := ingredients, recipes := Gemini.TagImages(raw),
           isScanning := false)
  }

  /** No partial commit: after a scan either both the ingredients and the recipes are
      those of this scan or both are as they were. */
  lemma ScanCommitsAllOrNothing(s: AppState, ticket: ScanTicket,
                                analysed: Settled<seq<string>>, generated: Settled<seq<Recipe>>)
    ensures var r := CompleteScan(s, ticket, analysed, generated);
      || (r.scannedIngredients == s.scannedIngredients && r.recipes == s.recipes)
      || (analysed.Fulfilled? && generated.Fulfilled?
          && r.scannedIngredients == analysed.value
          && r.recipes == Gemini.TagImages(generated.value))
  {
  }

  /** The analysis outcome of a scan is the parsed reply of the image model: a
      successful scan shows exactly the clean names parsed from that reply, and none
      for an empty or missing reply. */
  lemma ScanCommitsParsedReply(s: AppState, ticket: ScanTicket, reply: Option<string>,
                               recipes: seq<Recipe>)
    ensures var names := Gemini.ParseIngredientList(reply);
      var r := CompleteScan(s, ticket, Fulfilled(names), Fulfilled(recipes));
      && r.scannedIngredients == names
      && (forall i :: 0 <= i < |r.scannedIngredients| ==> Gemini.IsIngredientName(r.scannedIngredients[i]))
      && (reply.None? || reply == Some("") ==> r.scannedIngredients == [])
  {
  }

  /** A whole scan started from an idle state and settled with no other update in
      between: the state is idle again, and on failure it is the starting state. */
  lemma ScanRoundTrip(s: AppState, analysed: Settled<seq<string>>, generated: Settled<seq<Recipe>>)
    requires !s.isScanning
    ensures var (busy, ticket) := BeginScan(s);
      var r := CompleteScan(busy, ticket, analysed, generated);
      && !r.isScanning
      && (analysed.Rejected? || generated.Rejected? ==> r == s)
  {
  }

  // ---------------------------------------------------------------- dietary filter

  /** `handleFilterChange` up to the moment the request leaves: the filter is always
      set; only with scanned ingredients is the busy flag raised and a request for those
      ingredients, the current pantry and the new filter issued. */
  function BeginFilterChange(s: AppState, f: DietaryRestriction): (r: (AppState, Option<Gemini.RecipeRequest>))
    ensures r.0.filter == f
    ensures r.1.Some? <==> |s.scannedIngredients| > 0
    ensures r.1.Some? ==> r.1.value == Gemini.RecipeRequest(s.scannedIngredients, s.pantryIngredients, f)
    ensures r.0 == s.(filter := f, isScanning := r.0.isScanning)
    ensures r.0.isScanning == (r.1.Some? || s.isScanning)
  {
    if |s.scannedIngredients| == 0 then (s.(filter := f), None)
    else (s.(filter := f, isScanning := true),
          Some(Gemini.RecipeRequest(s.scannedIngredients, s.pantryIngredients, f)))
  }

  /** The end of `updateRecipesWithFilter`: on success only the recipes are replaced;
      the busy flag drops either way; the scanned ingredients never change. */
  function CompleteFilterChange(s: AppState, generated: Settled<seq<Recipe>>): (r: AppState)
    ensures !r.isScanning
    ensures r.scannedIngredients == s.scannedIngredients
    ensures generated.Fulfilled? ==> r.recipes == Gemini.TagImages(generated.value)
    ensures generated.Rejected? ==> r.recipes == s.recipes
    ensures r == s.(recipes := r.recipes, isScanning := false)
  {
    match generated
    case Fulfilled(raw) => s.(recipes := Gemini.TagImages(raw), isScanning := false)
    case Rejected => s.(isScanning := false)
  }

  /** A scan of an image showing eggs and milk, with flour in the pantry and no
      filter, asks for recipes from eggs, milk and flour, and on success shows them. */
  lemma ScanExample(s: AppState, recipes: seq<Recipe>)
    requires s.pantryIngredients == ["flour"] && s.filter == NoRestriction
    ensures var (busy, ticket) := BeginScan(s);
      && busy.isScanning
      && Gemini.Pool(ScanRequest(ticket, ["eggs", "milk"])) == ["eggs", "milk", "flour"]
      && Gemini.StyleWord(ScanRequest(ticket, ["eggs", "milk"]).filter) == "any style"
      && var r := CompleteScan(busy, ticket, Fulfilled(["eggs", "milk"]), Fulfilled(recipes));
         r.recipes == Gemini.TagImages(recipes) && !r.isScanning
         && r.scannedIngredients == ["eggs", "milk"]
  {
  }

  /** Changing the filter before anything was scanned only records the filter. */
  lemma FilterWithoutScanExample(s: AppState)
    requires s.scannedIngredients == []
    ensures BeginFilterChange(s, Vegan) == (s.(filter := Vegan), None)
  {
  }

  // ---------------------------------------------------------------- any sequence of updates

  /** Every update the application can apply to its state. */
  datatype Action =
    | StartScan
    | FinishScan(ticket: ScanTicket, analysed: Settled<seq<string>>, generated: Settled<seq<Recipe>>)
    | ChangeFilter(f: DietaryRestriction)
    | FinishFilterChange(generated: Settled<seq<Recipe>>)
    | AddShopping(item: string)
    | RemoveShopping(item: string)
    | ClearShopping
    | ToggleFav(recipe: Recipe)
    | AddPantry(item: string)
    | RemovePantry(item: string)
    | ClearPantryItems
    | Select(recipe: Recipe)
    | Close

  function Apply(s: AppState, a: Action): AppState {
    match a
    case StartScan => BeginScan(s).0
    case FinishScan(t, an, g) => CompleteScan(s, t, an, g)
    case ChangeFilter(f) => BeginFilterChange(s, f).0
    case FinishFilterChange(g) => CompleteFilterChange(s, g)
    case AddShopping(x) => AddToShoppingList(s, x)
    case RemoveShopping(x) => RemoveFromShoppingList(s, x)
    case ClearShopping => ClearShoppingList(s)
    case ToggleFav(r) => ToggleFavorite(s, r)
    case AddPantry(x) => AddPantryItem(s, x)
    case RemovePantry(x) => RemovePantryItem(s, x)
    case ClearPantryItems => ClearPantry(s)
    case Select(r) => SelectRecipe(s, r)
    case Close => CloseRecipe(s)
  }

  function ApplyAll(s: AppState, actions: seq<Action>): AppState
    decreases |actions|
  {
    if |actions| == 0 then s else ApplyAll(Apply(s, actions[0]), actions[1..])
  }

  /** One update keeps the shopping list duplicate-free and favourite ids unique. */
  lemma ApplyKeepsConsistent(s: AppState, a: Action)
    requires Consistent(s)
    ensures Consistent(Apply(s, a))
  {
    match a
    case RemoveShopping(x) =>
      Seqs.WithoutKeepsNoDuplicates(s.shoppingList, x);
    case _ =>
  }

  /** From the initial state, after any sequence of updates, the shopping list has no
      duplicates and no two favourites share an id. */
  lemma {:induction false} ApplyAllKeepsConsistent(s: AppState, actions: seq<Action>)
    requires Consistent(s)
    ensures Consistent(ApplyAll(s, actions))
    decreases |actions|
  {
    if |actions| > 0 {
      ApplyKeepsConsistent(s, actions[0]);
      ApplyAllKeepsConsistent(Apply(s, actions[0]), actions[1..]);
    }
  }

  lemma ReachableStatesConsistent(actions: seq<Action>)
    ensures Consistent(ApplyAll(Initial(), actions))
  {
    ApplyAllKeepsConsistent(Initial(), actions);
  }
}

=== FILE: common.dfy ===
/** Small wrapper types shared by every module of the model. */
module Common {

  /** A value that may be absent: JavaScript's `undefined` / `null`. */
  datatype Option<+T> = None | Some(value: T)

  /** How an awaited promise settled: with a value, or by throwing. */
  datatype Settled<+T> = Fulfilled(value: T) | Rejected
}

=== FILE: fridge_scanner.dfy ===
/** The image hand-off of the fridge scanner (`components/FridgeScanner.tsx`): the file
    reader's data URL (section 3 of RFC 2397, `data:<mediatype>;base64,<data>`) is cut
    at its commas and the second piece is passed on. File reading and drag state are
    outside the model. */
module FridgeScanner {
  import opened Common
  import Text

  /** Whether `onScan` is called, and with what: `None` is `undefined`. */
  datatype ScanCall = NotCalled | Called(payload: Option<string>)

  /** The reader's `onload`: an absent or empty result calls nothing; otherwise the
      piece after the first comma, up to the next comma, is passed on, or `undefined`
      when there is no comma at all. */
  function HandleReaderResult(result: Option<string>): (r: ScanCall)
    ensures r.NotCalled? <==> result.None? || result == Some("")
    ensures r.Called? ==> (r.payload.None? <==> ',' !in result.value)
    ensures r.Called? && r.payload.Some? ==> ',' !in r.payload.value
  {
    match result
    case None => NotCalled
    case Some(url) =>
      if url == "" then NotCalled
      else
        var pieces := Text.Split(url, ',');
        assert ',' in url ==> |pieces| >= 2 by {
          if |pieces| == 1 {
            assert Text.Join(pieces, [',']) == pieces[0];
          }
        }
        Called(if |pieces| >= 2 then Some(pieces[1]) else None)
  }

  /** The passed-on payload is the text between the first and the second comma. */
  lemma PayloadBetweenCommas(prefix: string, payload: string, rest: string)
    requires ',' !in prefix && ',' !in payload
    ensures HandleReaderResult(Some(prefix + "," + payload + "," + rest)) == Called(Some(payload))
  {
    var tail := Text.Split(rest, ',');
    var pieces := [prefix, payload] + tail;
    Text.JoinTwoMore(prefix, payload, tail, ",");
    forall i | 0 <= i < |pieces| ensures ',' !in pieces[i] {
      if i >= 2 {
        assert pieces[i] == tail[i - 2];
      }
    }
    Text.SplitJoin(pieces, ',');
  }

  /** For a data URL whose payload has no comma, as base64 never does, exactly the
      payload is passed on. */
  lemma DataUrlPayload(prefix: string, payload: string)
    requires ',' !in prefix && ',' !in payload
    ensures HandleReaderResult(Some(prefix + "," + payload)) == Called(Some(payload))
  {
    var pieces := [prefix, payload];
    assert Text.Join(pieces, [',']) == prefix + "," + payload by {
      assert pieces[1..] == [payload];
    }
    Text.SplitJoin(pieces, ',');
  }

  lemma DataUrlExample()
    ensures HandleReaderResult(Some("data:image/jpeg;base64,/9j/4AAQ"))
      == Called(Some("/9j/4AAQ"))
  {
    assert "data:image/jpeg;base64,/9j/4AAQ" == "data:image/jpeg;base64" + "," + "/9j/4AAQ";
    DataUrlPayload("data:image/jpeg;base64", "/9j/4AAQ");
  }
}

=== FILE: gemini.dfy ===
/** The pure parts of the AI service (`services/geminiService.ts`): turning the image
    model's reply into an ingredient list, building the recipe request, tagging the
    returned recipes with images, and the speech payload fallback. The remote calls
    themselves are not modelled; their results enter as values. */
module Gemini {
  import opened Common
  import opened Types
  import Text
  import Seqs

  /** `response.text || ""`: a missing reply reads as the empty string. */
  function ReplyText(text: Option<string>): (r: string)
    ensures text.Some? ==> r == text.value
    ensures text.None? ==> r == ""
  {
    match text
    case Some(t) => t
    case None => ""
  }

  /** `.map(s => s.trim())` */
  function TrimAll(ps: seq<string>): (r: seq<string>)
    ensures |r| == |ps|
    ensures forall i :: 0 <= i < |r| ==> r[i] == Text.Trim(ps[i])
  {
    if |ps| == 0 then [] else [Text.Trim(ps[0])] + TrimAll(ps[1..])
  }

  /** `.filter(s => s.length > 0)` */
  function DropEmpty(ps: seq<string>): (r: seq<string>)
    ensures forall x :: x in r <==> x in ps && x != ""
    ensures multiset(r) == multiset(ps)["" := 0]
    ensures Seqs.IsSubsequence(r, ps)
  {
    if |ps| == 0 then []
    else
      assert ps == [ps[0]] + ps[1..];
      assert forall x :: x in ps <==> x == ps[0] || x in ps[1..];
      if ps[0] == "" then DropEmpty(ps[1..])
      else [ps[0]] + DropEmpty(ps[1..])
  }

  /** The ingredient list read from the image model's reply (`analyzeFridgeImage`):
      comma-separated pieces, trimmed, empty ones dropped, in reply order. */
  function ParseIngredientList(text: Option<string>): (r: seq<string>)
    ensures forall i :: 0 <= i < |r| ==> IsIngredientName(r[i])
    ensures Seqs.IsSubsequence(r, TrimAll(Text.Split(ReplyText(text), ',')))
    ensures multiset(r) == multiset(TrimAll(Text.Split(ReplyText(text), ',')))["" := 0]
    ensures text.None? || text == Some("") ==> r == []
  {
    var pieces := Text.Split(ReplyText(text), ',');
    ParsedNamesClean(pieces);
    DropEmpty(TrimAll(pieces))
  }

  /** What the parser accepts as an ingredient name. */
  predicate IsIngredientName(x: string) {
    x != "" && ',' !in x && Text.IsTrimmed(x)
  }

  lemma ParsedNamesClean(pieces: seq<string>)
    requires forall i :: 0 <= i < |pieces| ==> ',' !in pieces[i]
    ensures forall i :: 0 <= i < |DropEmpty(TrimAll(pieces))| ==> IsIngredientName(DropEmpty(TrimAll(pieces))[i])
  {
    var trimmed := TrimAll(pieces);
    var r := DropEmpty(trimmed);
    forall i | 0 <= i < |r| ensures IsIngredientName(r[i]) {
      assert r[i] in r;
      var j :| 0 <= j < |trimmed| && trimmed[j] == r[i];
      TrimKeepsOnlyOwnChars(pieces[j]);
    }
  }

  lemma TrimKeepsOnlyOwnChars(s: string)
    ensures forall c :: c in Text.Trim(s) ==> c in s
  {
    var r := Text.Trim(s);
    var k := Text.Lead(s);
    Text.TrimIsInfix(s);
    forall c | c in r ensures c in s {
      var i :| 0 <= i < |r| && r[i] == c;
      assert s[k + i] == c;
    }
  }

  /** `" " + y` for every element: the pieces a `", "`-joined list splits into at
      its commas, after the first. */
  function Padded(ys: seq<string>): (r: seq<string>)
    ensures |r| == |ys|
    ensures forall i :: 0 <= i < |ys| ==> r[i] == " " + ys[i]
  {
    if |ys| == 0 then [] else [" " + ys[0]] + Padded(ys[1..])
  }

  /** Joining with `", "` is joining the padded pieces with `","`. */
  lemma {:induction false} JoinCommaSpace(h: string, ys: seq<string>)
    ensures Text.Join([h] + ys, ", ") == Text.Join([h] + Padded(ys), ",")
    decreases |ys|
  {
    if |ys| > 0 {
      assert ([h] + ys)[1..] == ys;
      assert ([h] + Padded(ys))[1..] == Padded(ys);
      assert ys == [ys[0]] + ys[1..];
      assert Padded(ys) == [" " + ys[0]] + Padded(ys[1..]);
      JoinCommaSpace(ys[0], ys[1..]);
      Text.JoinPrefixFirst(" ", ys[0], Padded(ys[1..]), ",");
    }
  }

  lemma {:induction false} DropEmptyKeepsNonEmpty(xs: seq<string>)
    requires forall i :: 0 <= i < |xs| ==> xs[i] != ""
    ensures DropEmpty(xs) == xs
    decreases |xs|
  {
    if |xs| > 0 {
      DropEmptyKeepsNonEmpty(xs[1..]);
      assert xs == [xs[0]] + xs[1..];
    }
  }

  /** Round trip: a list of ingredient names written as the prompt writes lists
      (`join(', ')`) parses back to exactly that list, in order. */
  lemma ParseJoinedList(xs: seq<string>)
    requires forall i :: 0 <= i < |xs| ==> IsIngredientName(xs[i])
    ensures ParseIngredientList(Some(Text.Join(xs, ", "))) == xs
  {
    if |xs| > 0 {
      var pieces := [xs[0]] + Padded(xs[1..]);
      JoinedSplitsPadded(xs);
      TrimPadded(xs);
      DropEmptyKeepsNonEmpty(xs);
      assert ParseIngredientList(Some(Text.Join(xs, ", "))) == DropEmpty(TrimAll(pieces));
    }
  }

  lemma JoinedSplitsPadded(xs: seq<string>)
    requires |xs| > 0
    requires forall i :: 0 <= i < |xs| ==> IsIngredientName(xs[i])
    ensures Text.Split(Text.Join(xs, ", "), ',') == [xs[0]] + Padded(xs[1..])
  {
    assert xs == [xs[0]] + xs[1..];
    JoinCommaSpace(xs[0], xs[1..]);
    SplitPadded(xs);
  }

  lemma SplitPadded(xs: seq<string>)
    requires |xs| > 0
    requires forall i :: 0 <= i < |xs| ==> IsIngredientName(xs[i])
    ensures Text.Split(Text.Join([xs[0]] + Padded(xs[1..]), ","), ',') == [xs[0]] + Padded(xs[1..])
  {
    var pieces := [xs[0]] + Padded(xs[1..]);
    forall i | 0 <= i < |pieces| ensures ',' !in pieces[i] {
      if i > 0 {
        assert pieces[i] == " " + xs[i];
      }
    }
    Text.SplitJoin(pieces, ',');
  }

  lemma TrimPadded(xs: seq<string>)
    requires |xs| > 0
    requires forall i :: 0 <= i < |xs| ==> IsIngredientName(xs[i])
    ensures TrimAll([xs[0]] + Padded(xs[1..])) == xs
  {
    var pieces := [xs[0]] + Padded(xs[1..]);
    forall i | 0 <= i < |pieces| ensures Text.Trim(pieces[i]) == xs[i] {
      if i == 0 {
        assert pieces[0] == [] + xs[0] + [];
        Text.TrimOfDecomposition([], xs[0], []);
      } else {
        assert pieces[i] == " " + xs[i] + [];
        Text.TrimOfDecomposition(" ", xs[i], []);
      }
    }
  }

  /** What `generateRecipes` is asked for: the scanned ingredients, the pantry and the
      dietary filter. */
  datatype RecipeRequest = RecipeRequest(
    fridge: seq<string>,
    pantry: seq<string>,
    filter: DietaryRestriction)

  /** `allAvailable`: fridge items first, then pantry items, duplicates kept. */
  function Pool(req: RecipeRequest): (r: seq<string>)
    ensures |r| == |req.fridge| + |req.pantry|
    ensures forall i :: 0 <= i < |req.fridge| ==> r[i] == req.fridge[i]
    ensures forall i :: 0 <= i < |req.pantry| ==> r[|req.fridge| + i] == req.pantry[i]
    ensures multiset(r) == multiset(req.fridge) + multiset(req.pantry)
  {
    req.fridge + req.pantry
  }

  /** The ingredient list as it appears in the generation prompt: it lists the whole
      pool, recoverably, when every item is a clean name, and is empty for an empty pool. */
  function PromptIngredients(req: RecipeRequest): (r: string)
    ensures Pool(req) == [] ==> r == ""
    ensures (forall i :: 0 <= i < |Pool(req)| ==> IsIngredientName(Pool(req)[i])) ==>
      ParseIngredientList(Some(r)) == Pool(req)
  {
    var pool := Pool(req);
    assert (forall i :: 0 <= i < |pool| ==> IsIngredientName(pool[i])) ==>
      ParseIngredientList(Some(Text.Join(pool, ", "))) == pool by {
      if forall i :: 0 <= i < |pool| ==> IsIngredientName(pool[i]) {
        ParseJoinedList(pool);
      }
    }
    Text.Join(pool, ", ")
  }

  /** The style phrase of the prompt: "any style" for no restriction, otherwise the
      restriction's own name. */
  function StyleWord(f: DietaryRestriction): (r: string)
    ensures r == "any style" <==> f == NoRestriction
    ensures f != NoRestriction ==> ParseRestriction(r) == Some(f)
  {
    if f == NoRestriction then "any style" else RestrictionName(f)
  }

  const ImagePrefix: string := "https://picsum.photos/seed/"
  const ImageSuffix: string := "/600/400"

  /** The id a placeholder image URI was built from, if it is one. */
  function SeedOf(uri: string): Option<string> {
    if |uri| >= |ImagePrefix| + |ImageSuffix|
       && uri[..|ImagePrefix|] == ImagePrefix
       && uri[|uri| - |ImageSuffix|..] == ImageSuffix
    then Some(uri[|ImagePrefix|..|uri| - |ImageSuffix|])
    else None
  }

  /** The placeholder image of a recipe: the id can always be read back from it. */
  function ImageUri(id: string): (r: string)
    ensures SeedOf(r) == Some(id)
  {
    var r := ImagePrefix + id + ImageSuffix;
    assert r[..|ImagePrefix|] == ImagePrefix;
    assert r[|r| - |ImageSuffix|..] == ImageSuffix;
    assert r[|ImagePrefix|..|r| - |ImageSuffix|] == id;
    r
  }

  /** Two recipes get the same image exactly when they have the same id. */
  lemma ImageUriInjective(a: string, b: string)
    ensures ImageUri(a) == ImageUri(b) <==> a == b
  {
    if ImageUri(a) == ImageUri(b) {
      assert SeedOf(ImageUri(a)) == Some(a);
    }
  }

  /** The post-processing of `generateRecipes`: every recipe keeps its position and
      every field but `image`, which becomes the placeholder for its id. */
  function TagImages(rs: seq<Recipe>): (r: seq<Recipe>)
    ensures |r| == |rs|
    ensures forall i :: 0 <= i < |r| ==>
      r[i].image == ImageUri(rs[i].id) && r[i].(image := rs[i].image) == rs[i]
  {
    if |rs| == 0 then [] else [rs[0].(image := ImageUri(rs[0].id))] + TagImages(rs[1..])
  }

  /** Tagging a tagged list changes nothing. */
  lemma TagImagesIdempotent(rs: seq<Recipe>)
    ensures TagImages(TagImages(rs)) == TagImages(rs)
  {
    var t := TagImages(rs);
    var tt := TagImages(t);
    forall i | 0 <= i < |t| ensures tt[i] == t[i] {
      assert t[i].id == rs[i].id by {
        assert t[i].(image := rs[i].image) == rs[i];
      }
    }
  }

  /** The speech payload handed to playback (`base64Audio || ""`): a missing payload
      becomes the empty string, any other payload passes through. */
  function SpeechPayload(inlineData: Option<string>): (r: string)
    ensures r == "" <==> inlineData.None? || inlineData == Some("")
    ensures inlineData.Some? ==> r == inlineData.value
  {
    match inlineData
    case Some(d) => d
    case None => ""
  }

  /** The text sent to speech synthesis (`Say clearly: ${text}`). */
  function NarrationPrompt(text: string): (r: string)
    ensures |r| == |"Say clearly: "| + |text|
    ensures r[..|"Say clearly: "|] == "Say clearly: " && r[|"Say clearly: "|..] == text
  {
    "Say clearly: " + text
  }
}

=== FILE: pantry_view.dfy ===
/** The pantry form and list (`components/PantryView.tsx`): input normalisation before
    the pantry reducers of the application run. */
module PantryView {
  import opened Common
  import opened Types
  import Text
  import App

  /** The outcome of one form submission: the input field afterwards, and the value
      handed to `onAdd`, if any. */
  datatype Submission = Submission(input: string, added: Option<string>)

  /** `handleSubmit`: a blank input is refused and left in the field; anything else is
      added trimmed, and the field is cleared. */
  function HandleSubmit(input: string): (r: Submission)
    ensures r.added.Some? <==> !Text.AllWhitespace(input)
    ensures r.added.Some? ==>
      && r.added.value == Text.Trim(input)
      && r.added.value != "" && Text.IsTrimmed(r.added.value)
      && r.input == ""
    ensures r.added.None? ==> r.input == input
  {
    var value := Text.Trim(input);
    if value != "" then Submission("", Some(value)) else Submission(input, None)
  }

  /** A submission applied to the application: an accepted value grows the pantry by
      exactly one entry, the trimmed input; a refused one changes nothing. */
  function Submit(app: AppState, input: string): (r: (AppState, string))
    ensures Text.AllWhitespace(input) ==> r == (app, input)
    ensures !Text.AllWhitespace(input) ==>
      && r.0 == App.AddPantryItem(app, Text.Trim(input))
      && |r.0.pantryIngredients| == |app.pantryIngredients| + 1
      && r.1 == ""
  {
    var sub := HandleSubmit(input);
    match sub.added
    case Some(value) => (App.AddPantryItem(app, value), sub.input)
    case None => (app, sub.input)
  }

  /** Submitting again right after an accepted submission adds nothing: one press,
      one `onAdd`. */
  lemma SubmitTwice(app: AppState, input: string)
    requires !Text.AllWhitespace(input)
    ensures var (app1, input1) := Submit(app, input);
      Submit(app1, input1) == (app1, input1)
  {
  }

  /** The remove button of the `i`-th pantry chip passes the chip's value, so every
      copy of that value leaves the pantry. */
  function PressRemove(app: AppState, i: nat): (r: AppState)
    requires i < |app.pantryIngredients|
    ensures app.pantryIngredients[i] !in r.pantryIngredients
    ensures |r.pantryIngredients|
      == |app.pantryIngredients| - multiset(app.pantryIngredients)[app.pantryIngredients[i]]
    ensures r == App.RemovePantryItem(app, app.pantryIngredients[i])
  {
    var item := app.pantryIngredients[i];
    var r := App.RemovePantryItem(app, item);
    RemovedCount(app.pantryIngredients, r.pantryIngredients, item);
    r
  }

  lemma RemovedCount(xs: seq<string>, ys: seq<string>, v: string)
    requires v !in ys
    requires forall y :: y != v ==> multiset(ys)[y] == multiset(xs)[y]
    ensures |ys| == |xs| - multiset(xs)[v]
  {
    assert multiset(ys) == multiset(xs)[v := 0];
    assert |multiset(xs)| == |multiset(xs)[v := 0]| + multiset(xs)[v];
  }
}

=== FILE: pcm.dfy ===
/** The raw-PCM playback path of the AI service (`playPCM` and its `decodeAudioData`):
    bytes become little-endian signed 16-bit samples, samples are split per channel and
    scaled into [-1, 1). Base64 decoding and the audio output itself are outside the
    model: the decoded bytes enter as a parameter and the result is the buffer that
    would be played. */
module Pcm {

  newtype byte = x: int | 0 <= x < 256

  /** The speech service's fixed output format. */
  const SampleRate: nat := 24000
  const MonoChannels: nat := 1

  predicate IsInt16(v: int) {
    -32768 <= v < 32768
  }

  /** Two bytes read as one little-endian two's-complement 16-bit sample: the sample
      agrees with the unsigned value `lo + 256 * hi` modulo 2^16. */
  function Int16LE(lo: byte, hi: byte): (v: int)
    ensures IsInt16(v)
    ensures (v + 65536) % 65536 == lo as int + 256 * hi as int
  {
    var u := lo as int + 256 * hi as int;
    if u >= 32768 then u - 65536 else u
  }

  /** The low and high byte of a sample's two's-complement encoding. */
  function LowByte(v: int): byte
    requires IsInt16(v)
  {
    ((v + 65536) % 256) as byte
  }

  function HighByte(v: int): byte
    requires IsInt16(v)
  {
    (((v + 65536) % 65536) / 256) as byte
  }

  /** Reading a sample back from its two bytes gives the sample. */
  lemma Int16RoundTrip(v: int)
    requires IsInt16(v)
    ensures Int16LE(LowByte(v), HighByte(v)) == v
  {
    var u := (v + 65536) % 65536;
    assert u == LowByte(v) as int + 256 * HighByte(v) as int;
  }

  /** Re-encoding a sample read from two bytes gives those bytes. */
  lemma BytesRoundTrip(lo: byte, hi: byte)
    ensures LowByte(Int16LE(lo, hi)) == lo && HighByte(Int16LE(lo, hi)) == hi
  {
  }

  /** `new Int16Array(bytes.buffer)` on a little-endian host: one sample per byte pair,
      in order. An odd byte count has no such view (the constructor throws); the
      decoder below turns that case into an error before reaching here. */
  function Samples(bytes: seq<byte>): (r: seq<int>)
    requires |bytes| % 2 == 0
    ensures |r| == |bytes| / 2
    ensures forall i :: 0 <= i < |r| ==> IsInt16(r[i])
  {
    seq(|bytes| / 2, i requires 0 <= i < |bytes| / 2 => Int16LE(bytes[2 * i], bytes[2 * i + 1]))
  }

  /** The byte stream that encodes a run of samples, two bytes per sample, low first. */
  function Encode(samples: seq<int>): (r: seq<byte>)
    requires forall i :: 0 <= i < |samples| ==> IsInt16(samples[i])
    ensures |r| == 2 * |samples| && |r| % 2 == 0
  {
    if |samples| == 0 then []
    else
      var rest := Encode(samples[1..]);
      [LowByte(samples[0]), HighByte(samples[0])] + rest
  }

  /** The first byte pair of a stream is its first sample. */
  lemma SamplesCons(lo: byte, hi: byte, rest: seq<byte>)
    requires |rest| % 2 == 0
    ensures Samples([lo, hi] + rest) == [Int16LE(lo, hi)] + Samples(rest)
  {
    var b := [lo, hi] + rest;
    var l, r := Samples(b), [Int16LE(lo, hi)] + Samples(rest);
    assert |l| == |r|;
    forall i | 0 <= i < |l| ensures l[i] == r[i] {
      if i > 0 {
        assert b[2 * i] == rest[2 * (i - 1)] && b[2 * i + 1] == rest[2 * (i - 1) + 1];
      }
    }
  }

  /** Decoding an encoded run of samples gives the samples back. */
  lemma {:induction false} DecodeEncode(samples: seq<int>)
    requires forall i :: 0 <= i < |samples| ==> IsInt16(samples[i])
    ensures Samples(Encode(samples)) == samples
    decreases |samples|
  {
    if |samples| == 0 {
      assert Encode(samples) == [];
      assert |Samples([])| == 0;
    } else {
      var lo, hi, rest := LowByte(samples[0]), HighByte(samples[0]), Encode(samples[1..]);
      assert Encode(samples) == [lo, hi] + rest;
      SamplesCons(lo, hi, rest);
      Int16RoundTrip(samples[0]);
      DecodeEncode(samples[1..]);
      calc {
        Samples(Encode(samples));
        [Int16LE(lo, hi)] + Samples(rest);
        [samples[0]] + samples[1..];
        samples;
      }
    }
  }

  /** Encoding the samples of an even-length byte stream gives the stream back. */
  lemma {:induction false} EncodeDecode(bytes: seq<byte>)
    requires |bytes| % 2 == 0
    ensures Encode(Samples(bytes)) == bytes
    decreases |bytes|
  {
    if |bytes| > 0 {
      var rest := bytes[2..];
      assert bytes == [bytes[0], bytes[1]] + rest;
      SamplesCons(bytes[0], bytes[1], rest);
      EncodeDecode(rest);
      BytesRoundTrip(bytes[0], bytes[1]);
      var s := Samples(bytes);
      assert s[1..] == Samples(rest);
    }
  }

  /** Scaling by 1/32768: exact (multiplying back gives the sample) and within [-1, 1)
      for 16-bit samples. */
  function Normalize(v: int): (x: real)
    ensures IsInt16(v) ==> -1.0 <= x < 1.0
    ensures x * 32768.0 == v as real
  {
    v as real / 32768.0
  }

  lemma {:induction false} MulLe(a: nat, b: nat, n: nat)
    requires a <= b
    ensures a * n <= b * n
    decreases n
  {
    if n > 0 {
      MulLe(a, b, n - 1);
    }
  }

  /** Euclidean division by `n` has one quotient and one remainder. */
  lemma DivModUnique(k: nat, n: nat, q: nat, r: nat)
    requires n >= 1 && r < n && k == q * n + r
    ensures k / n == q && k % n == r
  {
    var q', r' := k / n, k % n;
    if q > q' {
      MulLe(q' + 1, q, n);
    } else if q < q' {
      MulLe(q + 1, q', n);
    }
  }

  /** Index of frame `i`, channel `c` in an interleaved stream of `n` channels lies
      inside a stream holding at least `i + 1` whole frames. */
  lemma FrameIndexInRange(len: nat, n: nat, i: nat, c: nat)
    requires n >= 1 && c < n && i < len / n
    ensures i * n + c < len
  {
    MulLe(i + 1, len / n, n);
  }

  /** Per-channel sample lists of an interleaved stream: channel `c`, frame `i` is
      sample `i * n + c`; a trailing partial frame is dropped. */
  function Deinterleave(samples: seq<int>, n: nat): (chs: seq<seq<int>>)
    requires n >= 1
    ensures |chs| == n
    ensures forall c :: 0 <= c < n ==> |chs[c]| == |samples| / n
  {
    seq(n, c requires 0 <= c < n =>
      seq(|samples| / n, i requires 0 <= i < |samples| / n =>
        FrameIndexInRange(|samples|, n, i, c);
        samples[i * n + c]))
  }

  /** Channels of equal length interleaved frame by frame: sample `k` is frame
      `k / n` of channel `k % n`. */
  function Interleave(chs: seq<seq<int>>, frames: nat): (r: seq<int>)
    requires |chs| >= 1
    requires forall c :: 0 <= c < |chs| ==> |chs[c]| == frames
    ensures |r| == |chs| * frames
  {
    var n := |chs|;
    seq(n * frames, k requires 0 <= k < n * frames =>
      assert k / n < frames by { DivBound(k, n, frames); }
      chs[k % n][k / n])
  }

  lemma DivBound(k: nat, n: nat, m: nat)
    requires n >= 1 && k < n * m
    ensures k / n < m
  {
    if k / n >= m {
      MulLe(m, k / n, n);
    }
  }

  lemma FrameOf(i: nat, n: nat, c: nat)
    requires c < n
    ensures (i * n + c) / n == i && (i * n + c) % n == c
  {
    DivModUnique(i * n + c, n, i, c);
  }

  /** Splitting a whole number of frames into channels and interleaving them again
      gives the original stream. */
  lemma InterleaveDeinterleave(samples: seq<int>, n: nat)
    requires n >= 1 && |samples| % n == 0
    ensures Interleave(Deinterleave(samples, n), |samples| / n) == samples
  {
    var frames := |samples| / n;
    var chs := Deinterleave(samples, n);
    var r := Interleave(chs, frames);
    assert |r| == |samples| by {
      assert n * frames == |samples|;
    }
    forall k | 0 <= k < |samples| ensures r[k] == samples[k] {
      var i, c := k / n, k % n;
      assert k == i * n + c;
      DivBound(k, n, frames);
    }
  }

  /** Interleaving equal-length channels and splitting the stream again gives the
      channels back. */
  lemma DeinterleaveInterleave(chs: seq<seq<int>>, frames: nat)
    requires |chs| >= 1
    requires forall c :: 0 <= c < |chs| ==> |chs[c]| == frames
    ensures Deinterleave(Interleave(chs, frames), |chs|) == chs
  {
    var n := |chs|;
    var s := Interleave(chs, frames);
    DivModUnique(|s|, n, frames, 0);
    var d := Deinterleave(s, n);
    forall c | 0 <= c < n ensures d[c] == chs[c] {
      forall i | 0 <= i < frames ensures d[c][i] == chs[c][i] {
        FrameOf(i, n, c);
        FrameIndexInRange(|s|, n, i, c);
      }
    }
  }

  /** A decoded audio buffer: its rate and one list of normalised samples per channel. */
  datatype AudioBuffer = AudioBuffer(sampleRate: nat, channelData: seq<seq<real>>)

  /** Why decoding throws: the byte count is odd (the 16-bit view cannot be built), or
      the buffer would have no channel or no frame (buffer creation rejects it). */
  datatype AudioError = OddByteLength | EmptyBuffer

  datatype Decoded = Decoded(buffer: AudioBuffer) | DecodeThrew(error: AudioError)

  /** `x / 32768` for every sample of every channel. */
  function NormalizeAll(xs: seq<int>): (r: seq<real>)
    ensures |r| == |xs|
    ensures forall i :: 0 <= i < |xs| ==> r[i] == Normalize(xs[i])
  {
    seq(|xs|, i requires 0 <= i < |xs| => Normalize(xs[i]))
  }

  /** `decodeAudioData(bytes, ctx, sampleRate, numChannels)`: throws for an odd byte
      count and for a buffer without channels or frames, otherwise yields one channel
      list per channel at the given rate. */
  function DecodeAudioData(bytes: seq<byte>, sampleRate: nat, numChannels: nat): (r: Decoded)
    ensures r == DecodeThrew(OddByteLength) <==> |bytes| % 2 == 1
    ensures r == DecodeThrew(EmptyBuffer) <==>
      |bytes| % 2 == 0 && (numChannels == 0 || |bytes| / 2 < numChannels)
    ensures r.Decoded? ==>
      r.buffer.sampleRate == sampleRate && |r.buffer.channelData| == numChannels
  {
    if |bytes| % 2 == 1 then DecodeThrew(OddByteLength)
    else
      var samples := Samples(bytes);
      if numChannels == 0 || |samples| / numChannels == 0 then DecodeThrew(EmptyBuffer)
      else
        var chs := Deinterleave(samples, numChannels);
        Decoded(AudioBuffer(sampleRate,
          seq(numChannels, c requires 0 <= c < numChannels => NormalizeAll(chs[c]))))
  }

  /** A decoded buffer has `floor(samples / n)` frames in every channel, at least one,
      and every value in [-1, 1). */
  lemma DecodedShape(bytes: seq<byte>, sampleRate: nat, n: nat)
    requires DecodeAudioData(bytes, sampleRate, n).Decoded?
    ensures var data := DecodeAudioData(bytes, sampleRate, n).buffer.channelData;
      && (forall c :: 0 <= c < n ==> |data[c]| == |bytes| / 2 / n >= 1)
      && (forall c, i :: 0 <= c < n && 0 <= i < |data[c]| ==> -1.0 <= data[c][i] < 1.0)
  {
    var data := DecodeAudioData(bytes, sampleRate, n).buffer.channelData;
    var samples := Samples(bytes);
    var chs := Deinterleave(samples, n);
    forall c, i | 0 <= c < n && 0 <= i < |data[c]| ensures -1.0 <= data[c][i] < 1.0 {
      assert data[c][i] == Normalize(chs[c][i]);
      FrameIndexInRange(|samples|, n, i, c);
      assert chs[c][i] == samples[i * n + c];
    }
  }

  /** The channel loops of `decodeAudioData` as written: for every channel, for every
      frame, store the interleaved sample scaled by 1/32768. They fill exactly the
      channel lists of `DecodeAudioData`. */
  method FillChannels(samples: seq<int>, numChannels: nat) returns (data: seq<seq<real>>)
    requires numChannels >= 1
    ensures |data| == numChannels
    ensures forall c :: 0 <= c < numChannels ==>
      data[c] == NormalizeAll(Deinterleave(samples, numChannels)[c])
  {
    var frameCount := |samples| / numChannels;
    data := [];
    var channel := 0;
    while channel < numChannels
      invariant 0 <= channel <= numChannels
      invariant |data| == channel
      invariant forall c :: 0 <= c < channel ==>
        data[c] == NormalizeAll(Deinterleave(samples, numChannels)[c])
    {
      var channelData: seq<real> := [];
      var i := 0;
      while i < frameCount
        invariant 0 <= i <= frameCount
        invariant |channelData| == i
        invariant forall k :: 0 <= k < i ==>
          k * numChannels + channel < |samples|
          && channelData[k] == samples[k * numChannels + channel] as real / 32768.0
      {
        FrameIndexInRange(|samples|, numChannels, i, channel);
        channelData := channelData + [samples[i * numChannels + channel] as real / 32768.0];
        i := i + 1;
      }
      assert channelData == NormalizeAll(Deinterleave(samples, numChannels)[channel]);
      data := data + [channelData];
      channel := channel + 1;
    }
  }

  /** Each buffer value is the matching interleaved sample scaled by 1/32768. */
  lemma DecodedValue(bytes: seq<byte>, sampleRate: nat, n: nat, c: nat, i: nat)
    requires |bytes| % 2 == 0 && n >= 1 && c < n && i < |bytes| / 2 / n
    ensures DecodeAudioData(bytes, sampleRate, n).Decoded?
    ensures i * n + c < |Samples(bytes)|
    ensures DecodeAudioData(bytes, sampleRate, n).buffer.channelData[c][i]
      == Normalize(Samples(bytes)[i * n + c])
  {
    FrameIndexInRange(|bytes| / 2, n, i, c);
  }

  /** For the one-channel stream the speech service returns, the buffer holds every
      sample, in order, scaled by 1/32768. */
  lemma MonoDecode(bytes: seq<byte>)
    requires |bytes| % 2 == 0 && |bytes| >= 2
    ensures DecodeAudioData(bytes, SampleRate, MonoChannels)
      == Decoded(AudioBuffer(SampleRate, [NormalizeAll(Samples(bytes))]))
  {
    var chs := Deinterleave(Samples(bytes), 1);
    assert chs[0] == Samples(bytes);
  }

  /** Two bytes `00 40` and `00 C0` decode to the samples 0.5 and -0.5. */
  lemma DecodeExample()
    ensures DecodeAudioData([0x00, 0x40, 0x00, 0xC0], SampleRate, MonoChannels)
      == Decoded(AudioBuffer(24000, [[0.5, -0.5]]))
  {
    var b: seq<byte> := [0x00, 0x40, 0x00, 0xC0];
    MonoDecode(b);
    assert Samples(b) == [16384, -16384];
    assert NormalizeAll([16384, -16384]) == [0.5, -0.5];
  }

  /** What `playPCM` does with a payload: nothing for an empty one, otherwise the
      decoded buffer is started, or decoding throws. */
  datatype Playback = Skipped | Started(buffer: AudioBuffer) | PlaybackThrew(error: AudioError)

  /** `playPCM(payload)`, where `bytes` stands for the base64 decoding of `payload`: an
      empty payload is skipped; otherwise every sample is played, in order, scaled, at
      24000 Hz mono, or decoding throws. */
  function PlayPcm(payload: string, bytes: seq<byte>): (r: Playback)
    ensures r.Skipped? <==> payload == ""
    ensures r.Started? ==> r.buffer.sampleRate == SampleRate && |r.buffer.channelData| == 1
    ensures payload != "" && |bytes| % 2 == 1 ==> r == PlaybackThrew(OddByteLength)
    ensures payload != "" && |bytes| == 0 ==> r == PlaybackThrew(EmptyBuffer)
    ensures payload != "" && |bytes| % 2 == 0 && |bytes| >= 2 ==>
      r == Started(AudioBuffer(SampleRate, [NormalizeAll(Samples(bytes))]))
  {
    if payload == "" then Skipped
    else
      var d := DecodeAudioData(bytes, SampleRate, MonoChannels);
      assert |bytes| % 2 == 0 && |bytes| >= 2 ==>
        d == Decoded(AudioBuffer(SampleRate, [NormalizeAll(Samples(bytes))])) by {
        if |bytes| % 2 == 0 && |bytes| >= 2 {
          MonoDecode(bytes);
        }
      }
      match d
      case Decoded(buffer) => Started(buffer)
      case DecodeThrew(e) => PlaybackThrew(e)
  }
}

=== FILE: seqs.dfy ===
/** Sequence facts used by the list-valued parts of the application state. */
module Seqs {

  /** `a` can be obtained from `b` by deleting elements: relative order is kept. */
  ghost predicate IsSubsequence<T>(a: seq<T>, b: seq<T>)
    decreases |b|
  {
    if |a| == 0 then true
    else if |b| == 0 then false
    else (a[0] == b[0] && IsSubsequence(a[1..], b[1..])) || IsSubsequence(a, b[1..])
  }

  /** No value occurs twice. */
  predicate NoDuplicates<T(==)>(xs: seq<T>) {
    forall i, j :: 0 <= i < j < |xs| ==> xs[i] != xs[j]
  }

  /** `xs.filter(i => i !== v)`: every copy of `v` is dropped, the rest keep their order. */
  function Without<T(==,!new)>(xs: seq<T>, v: T): (r: seq<T>)
    ensures v !in r
    ensures forall y :: y != v ==> multiset(r)[y] == multiset(xs)[y]
    ensures IsSubsequence(r, xs)
    ensures |r| <= |xs|
  {
    if |xs| == 0 then []
    else
      assert xs == [xs[0]] + xs[1..];
      if xs[0] == v then Without(xs[1..], v)
      else [xs[0]] + Without(xs[1..], v)
  }

  /** Removing a value that does not occur changes nothing. */
  lemma {:induction false} WithoutAbsent<T(!new)>(xs: seq<T>, v: T)
    requires v !in xs
    ensures Without(xs, v) == xs
    decreases |xs|
  {
    if |xs| > 0 {
      assert v !in xs[1..] by {
        forall y | y in xs[1..] ensures y != v {
          assert y in xs;
        }
      }
      WithoutAbsent(xs[1..], v);
    }
  }

  /** A duplicate-free list stays duplicate-free under deletion. */
  lemma WithoutKeepsNoDuplicates<T(!new)>(xs: seq<T>, v: T)
    requires NoDuplicates(xs)
    ensures NoDuplicates(Without(xs, v))
  {
    var r := Without(xs, v);
    forall i, j | 0 <= i < j < |r| ensures r[i] != r[j] {
      if r[i] == r[j] {
        assert multiset(r)[r[i]] >= 2 by {
          assert multiset([r[i], r[j]]) <= multiset(r) by {
            SubMultiset(r, i, j);
          }
        }
        NoDuplicatesCount(xs, r[i]);
      }
    }
  }

  lemma SubMultiset<T>(r: seq<T>, i: int, j: int)
    requires 0 <= i < j < |r|
    ensures multiset([r[i], r[j]]) <= multiset(r)
  {
    assert r == r[..i] + [r[i]] + r[i+1..j] + [r[j]] + r[j+1..];
  }

  /** In a duplicate-free list every value occurs at most once. */
  lemma {:induction false} NoDuplicatesCount<T>(xs: seq<T>, y: T)
    requires NoDuplicates(xs)
    ensures multiset(xs)[y] <= 1
    decreases |xs|
  {
    if |xs| > 0 {
      assert xs == [xs[0]] + xs[1..];
      assert NoDuplicates(xs[1..]);
      NoDuplicatesCount(xs[1..], y);
      if xs[0] == y {
        assert y !in xs[1..];
      }
    }
  }
}

=== FILE: stepbystep.dfy ===
/** The local state of step-by-step cooking mode (`components/StepByStepMode.tsx`): the
    current step, the narration busy flag and the open substitution panel. The view is
    created fresh whenever a recipe is selected and discarded when it closes. */
module StepByStep {
  import opened Common
  import opened Types
  import App
  import Gemini

  datatype View = View(currentStep: nat, isSpeaking: bool, showSubsFor: Option<string>)

  /** The view as it first appears. */
  function Opened(): (v: View)
    ensures v.currentStep == 0 && !v.isSpeaking && v.showSubsFor.None?
  {
    View(0, false, None)
  }

  /** The highest step index the view can show: `max(0, stepCount - 1)`. */
  function LastStep(stepCount: nat): nat {
    if stepCount == 0 then 0 else stepCount - 1
  }

  // ---------------------------------------------------------------- navigation

  /** `handleNext`: advances only while a later step exists; nothing else changes. */
  function Next(v: View, stepCount: nat): (r: View)
    ensures r.currentStep == v.currentStep + 1 <==> v.currentStep + 1 < stepCount
    ensures r.currentStep == v.currentStep || r.currentStep == v.currentStep + 1
    ensures r == v.(currentStep := r.currentStep)
  {
    if v.currentStep < stepCount - 1 then v.(currentStep := v.currentStep + 1) else v
  }

  /** `handlePrev`: goes back only from a step after the first; nothing else changes. */
  function Prev(v: View): (r: View)
    ensures r.currentStep + 1 == v.currentStep <==> v.currentStep > 0
    ensures r.currentStep == v.currentStep || r.currentStep + 1 == v.currentStep
    ensures r == v.(currentStep := r.currentStep)
  {
    if v.currentStep > 0 then v.(currentStep := v.currentStep - 1) else v
  }

  /** A step forward that happened is undone by a step back. */
  lemma PrevUndoesNext(v: View, stepCount: nat)
    requires v.currentStep + 1 < stepCount
    ensures Prev(Next(v, stepCount)) == v
  {
  }

  /** A step back that happened is undone by a step forward. */
  lemma NextUndoesPrev(v: View, stepCount: nat)
    requires 0 < v.currentStep <= LastStep(stepCount)
    ensures Next(Prev(v), stepCount) == v
  {
  }

  datatype Nav = NextStep | PrevStep

  function Navigate(v: View, stepCount: nat, moves: seq<Nav>): View
    decreases |moves|
  {
    if |moves| == 0 then v
    else
      var w := match moves[0] case NextStep => Next(v, stepCount) case PrevStep => Prev(v);
      Navigate(w, stepCount, moves[1..])
  }

  /** From a step in range, any sequence of forward and back presses stays in range
      `0 .. max(0, stepCount - 1)` and changes nothing but the step. */
  lemma {:induction false} NavigationStaysInRange(v: View, stepCount: nat, moves: seq<Nav>)
    requires v.currentStep <= LastStep(stepCount)
    ensures Navigate(v, stepCount, moves).currentStep <= LastStep(stepCount)
    ensures Navigate(v, stepCount, moves) == v.(currentStep := Navigate(v, stepCount, moves).currentStep)
    decreases |moves|
  {
    if |moves| > 0 {
      var w := match moves[0] case NextStep => Next(v, stepCount) case PrevStep => Prev(v);
      NavigationStaysInRange(w, stepCount, moves[1..]);
    }
  }

  /** In particular, a freshly opened view never leaves the recipe's steps. */
  lemma OpenedStaysInRange(stepCount: nat, moves: seq<Nav>)
    ensures Navigate(Opened(), stepCount, moves).currentStep <= LastStep(stepCount)
  {
    NavigationStaysInRange(Opened(), stepCount, moves);
  }

  /** What the primary button does. */
  datatype Primary = FinishCooking | Advance(view: View)

  /** The primary button: on the last step it finishes (closes the view); otherwise it
      is `handleNext`. With no steps at all there is no last step, and the button
      advances nowhere. */
  function PressPrimary(v: View, stepCount: nat): (r: Primary)
    ensures r.FinishCooking? <==> stepCount >= 1 && v.currentStep == stepCount - 1
    ensures r.Advance? ==> r.view == Next(v, stepCount)
  {
    if v.currentStep == stepCount - 1 then FinishCooking else Advance(Next(v, stepCount))
  }

  /** Within range, the primary button either finishes or moves exactly one step on. */
  lemma PrimaryFinishesOrAdvances(v: View, stepCount: nat)
    requires stepCount >= 1 && v.currentStep <= LastStep(stepCount)
    ensures PressPrimary(v, stepCount).FinishCooking?
      || PressPrimary(v, stepCount).view.currentStep == v.currentStep + 1
  {
  }

  /** Finishing is the application's close: only the selection is cleared. */
  function Finish(app: AppState): (r: AppState)
    ensures r.selectedRecipe.None? && r == app.(selectedRecipe := None)
  {
    App.CloseRecipe(app)
  }

  /** The primary button applied to the application and the open view: on the last
      step the application closes the recipe and the view is gone; otherwise the
      application is untouched and the view moves on as `handleNext`. */
  function ApplyPrimary(app: AppState, v: View, stepCount: nat): (r: (AppState, Option<View>))
    ensures r.1.None? <==> stepCount >= 1 && v.currentStep == stepCount - 1
    ensures r.1.None? ==> r.0 == App.CloseRecipe(app) && r.0.selectedRecipe.None?
    ensures r.1.Some? ==> r.0 == app && r.1.value == Next(v, stepCount)
  {
    match PressPrimary(v, stepCount)
    case FinishCooking => (Finish(app), None)
    case Advance(w) => (app, Some(w))
  }

  // ---------------------------------------------------------------- narration

  /** `recipe.steps[currentStep]` as text: past the end it reads `undefined`, which the
      template literal renders as the word "undefined". */
  function StepText(steps: seq<string>, step: nat): (t: string)
    ensures step < |steps| ==> t == steps[step]
    ensures step >= |steps| ==> t == "undefined"
  {
    if step < |steps| then steps[step] else "undefined"
  }

  /** `speakStep` up to the request: while narrating, a press does nothing; otherwise
      the busy flag goes up and the current step's text is sent for synthesis. */
  function BeginSpeak(v: View, steps: seq<string>): (r: (View, Option<string>))
    ensures v.isSpeaking ==> r == (v, None)
    ensures !v.isSpeaking ==>
      r.0 == v.(isSpeaking := true)
      && r.1 == Some(Gemini.NarrationPrompt(StepText(steps, v.currentStep)))
  {
    if v.isSpeaking then (v, None)
    else (v.(isSpeaking := true), Some(Gemini.NarrationPrompt(StepText(steps, v.currentStep))))
  }

  /** The `finally` of `speakStep`: whatever the outcome, the busy flag drops. */
  function EndSpeak(v: View): (r: View)
    ensures !r.isSpeaking && r == v.(isSpeaking := false)
  {
    v.(isSpeaking := false)
  }

  /** A narration begun from an idle view and settled leaves the view as it was. */
  lemma SpeakRoundTrip(v: View, steps: seq<string>)
    requires !v.isSpeaking
    ensures EndSpeak(BeginSpeak(v, steps).0) == v
  {
  }

  // ---------------------------------------------------------------- missing ingredients

  /** The substitution button is shown for a missing ingredient with alternatives. */
  predicate ShowsSubstitutionsButton(ing: Ingredient) {
    ing.isMissing == Some(true) && ing.substitutions.Some? && |ing.substitutions.value| > 0
  }

  /** Whether the substitution panel of an ingredient is displayed. */
  predicate PanelOpen(v: View, ing: Ingredient) {
    ing.isMissing == Some(true) && v.showSubsFor == Some(ing.name) && ing.substitutions.Some?
  }

  /** The substitution button: the open name closes, any other name opens in its place,
      so open panels always share one name. */
  function ToggleSubstitutions(v: View, name: string): (r: View)
    ensures v.showSubsFor == Some(name) ==> r.showSubsFor.None?
    ensures v.showSubsFor != Some(name) ==> r.showSubsFor == Some(name)
    ensures r == v.(showSubsFor := r.showSubsFor)
    ensures forall a: Ingredient, b: Ingredient :: PanelOpen(r, a) && PanelOpen(r, b) ==> a.name == b.name == name
  {
    v.(showSubsFor := if v.showSubsFor == Some(name) then None else Some(name))
  }

  /** A press on a missing ingredient's substitution button, which only exists when
      the ingredient has alternatives: it flips that ingredient's panel. */
  function PressSubstitutions(v: View, ing: Ingredient): (r: View)
    ensures !ShowsSubstitutionsButton(ing) ==> r == v
    ensures ShowsSubstitutionsButton(ing) ==> (PanelOpen(r, ing) <==> !PanelOpen(v, ing))
    ensures r == v.(showSubsFor := r.showSubsFor)
  {
    if ShowsSubstitutionsButton(ing) then ToggleSubstitutions(v, ing.name) else v
  }

  /** Pressing the same substitution button twice from a closed state closes it again. */
  lemma ToggleSubstitutionsTwice(v: View, name: string)
    requires v.showSubsFor.None? || v.showSubsFor == Some(name)
    ensures ToggleSubstitutions(ToggleSubstitutions(v, name), name) == v
  {
  }

  /** The add-to-list button of a missing ingredient is disabled exactly when its name
      is already on the shopping list. */
  predicate AddButtonDisabled(shoppingList: seq<string>, ing: Ingredient) {
    ing.name in shoppingList
  }

  /** A press on the add-to-list button. The button exists only for an ingredient the
      recipe marks as missing; a disabled button does nothing, an enabled one calls
      `onAddToShoppingList`. */
  function PressAddToList(app: AppState, ing: Ingredient): (r: AppState)
    ensures ing.isMissing != Some(true) ==> r == app
    ensures AddButtonDisabled(app.shoppingList, ing) ==> r == app
    ensures ing.isMissing == Some(true) ==>
      ing.name in r.shoppingList && r == App.AddToShoppingList(app, ing.name)
  {
    if ing.isMissing != Some(true) || AddButtonDisabled(app.shoppingList, ing) then app
    else App.AddToShoppingList(app, ing.name)
  }

  /** After one press on a missing ingredient's button it is disabled, and for any
      ingredient further presses change nothing. */
  lemma PressAddToListTwice(app: AppState, ing: Ingredient)
    ensures ing.isMissing == Some(true) ==>
      AddButtonDisabled(PressAddToList(app, ing).shoppingList, ing)
    ensures PressAddToList(PressAddToList(app, ing), ing) == PressAddToList(app, ing)
  {
  }
}

=== FILE: text.dfy ===
/** The JavaScript string operations the application relies on: `trim`, `split` on one
    character and `join`. */
module Text {

  /** ECMAScript WhiteSpace and LineTerminator code points (sections 12.2 and 12.3 of
      ECMA-262): exactly the characters `String.prototype.trim` strips. */
  const Whitespace: set<char> := {
    '\t', '\n', '\U{000B}', '\U{000C}', '\r', ' ', '\U{00A0}', '\U{1680}',
    '\U{2000}', '\U{2001}', '\U{2002}', '\U{2003}', '\U{2004}', '\U{2005}',
    '\U{2006}', '\U{2007}', '\U{2008}', '\U{2009}', '\U{200A}',
    '\U{2028}', '\U{2029}', '\U{202F}', '\U{205F}', '\U{3000}', '\U{FEFF}'
  }

  predicate IsWhitespace(c: char) {
    c in Whitespace
  }

  predicate AllWhitespace(s: string) {
    forall i :: 0 <= i < |s| ==> IsWhitespace(s[i])
  }

  /** Neither the first nor the last character is whitespace. */
  predicate IsTrimmed(s: string) {
    |s| == 0 || (!IsWhitespace(s[0]) && !IsWhitespace(s[|s| - 1]))
  }

  /** Index of the first non-whitespace character at or after `i`, or `|s|`. */
  function CoreStart(s: string, i: nat): (k: nat)
    requires i <= |s|
    ensures i <= k <= |s|
    ensures forall m :: i <= m < k ==> IsWhitespace(s[m])
    ensures k == |s| || !IsWhitespace(s[k])
    decreases |s| - i
  {
    if i < |s| && IsWhitespace(s[i]) then CoreStart(s, i + 1) else i
  }

  /** Index just past the last non-whitespace character in `s[lo..j]`, or `lo`. */
  function CoreEnd(s: string, lo: nat, j: nat): (e: nat)
    requires lo <= j <= |s|
    ensures lo <= e <= j
    ensures forall m :: e <= m < j ==> IsWhitespace(s[m])
    ensures e == lo || !IsWhitespace(s[e - 1])
    decreases j
  {
    if lo < j && IsWhitespace(s[j - 1]) then CoreEnd(s, lo, j - 1) else j
  }

  /** Number of leading whitespace characters `trim` removes. */
  function Lead(s: string): nat {
    CoreStart(s, 0)
  }

  /** `s.trim()`: a trimmed string, empty exactly when `s` is all whitespace. */
  function Trim(s: string): (r: string)
    ensures IsTrimmed(r)
    ensures r == "" <==> AllWhitespace(s)
  {
    var k := CoreStart(s, 0);
    var e := CoreEnd(s, k, |s|);
    TrimBounds(s, k, e);
    s[k..e]
  }

  /** `trim` removes only a whitespace prefix and a whitespace suffix: its result is the
      infix of `s` starting at `Lead(s)`. */
  lemma TrimIsInfix(s: string)
    ensures Lead(s) + |Trim(s)| <= |s| && s[Lead(s)..Lead(s) + |Trim(s)|] == Trim(s)
    ensures AllWhitespace(s[..Lead(s)]) && AllWhitespace(s[Lead(s) + |Trim(s)|..])
  {
    var k := CoreStart(s, 0);
    var e := CoreEnd(s, k, |s|);
    TrimBounds(s, k, e);
    assert Trim(s) == s[k..e];
  }

  lemma TrimBounds(s: string, k: nat, e: nat)
    requires k == CoreStart(s, 0) && e == CoreEnd(s, k, |s|)
    ensures IsTrimmed(s[k..e])
    ensures AllWhitespace(s[..k]) && AllWhitespace(s[e..])
    ensures e == k <==> AllWhitespace(s)
  {
    assert AllWhitespace(s[..k]) by {
      forall m | 0 <= m < k ensures IsWhitespace(s[..k][m]) {
        assert s[..k][m] == s[m];
      }
    }
    assert AllWhitespace(s[e..]) by {
      forall m | 0 <= m < |s| - e ensures IsWhitespace(s[e..][m]) {
        assert s[e..][m] == s[e + m];
      }
    }
    if e == k {
      forall m | 0 <= m < |s| ensures IsWhitespace(s[m]) {
        assert s[m] == s[..k][m];
      }
    } else {
      assert !IsWhitespace(s[k]);
    }
  }

  /** Trim is determined by the decomposition it finds: any split of `s` into
      whitespace, a trimmed core and whitespace has that core as its trim. */
  lemma TrimOfDecomposition(pre: string, core: string, post: string)
    requires AllWhitespace(pre) && AllWhitespace(post)
    requires IsTrimmed(core) && core != ""
    ensures Trim(pre + core + post) == core
  {
    var s := pre + core + post;
    var k := CoreStart(s, 0);
    assert s[|pre|] == core[0];
    assert k == |pre|;
    var e := CoreEnd(s, k, |s|);
    var last := |pre| + |core|;
    assert s[last - 1] == core[|core| - 1];
    assert e == last;
    assert s[k..e] == core;
  }

  /** Trimming twice is trimming once. */
  lemma TrimIdempotent(s: string)
    ensures Trim(Trim(s)) == Trim(s)
  {
    var r := Trim(s);
    if r != "" {
      assert r == [] + r + [];
      TrimOfDecomposition([], r, []);
    }
  }

  /** `ps.join(sep)`, as JavaScript's `Array.prototype.join`. */
  function Join(ps: seq<string>, sep: string): string
    decreases |ps|
  {
    if |ps| == 0 then ""
    else if |ps| == 1 then ps[0]
    else ps[0] + sep + Join(ps[1..], sep)
  }

  /** Text in front of the first piece stays in front of the join. */
  lemma JoinPrefixFirst(p: string, b: string, rest: seq<string>, sep: string)
    ensures Join([p + b] + rest, sep) == p + Join([b] + rest, sep)
  {
    assert ([p + b] + rest)[1..] == rest;
    assert ([b] + rest)[1..] == rest;
  }

  /** Unfolding a join by its first two pieces. */
  lemma JoinTwoMore(a: string, b: string, ps: seq<string>, sep: string)
    requires |ps| >= 1
    ensures Join([a, b] + ps, sep) == a + sep + b + sep + Join(ps, sep)
  {
    assert ([a, b] + ps)[1..] == [b] + ps;
    assert ([b] + ps)[1..] == ps;
  }

  /** `s.split(sep)` for a one-character separator: the pieces between separators,
      never empty as a list (`"".split(",")` is `[""]`), and joining them back with the
      separator gives `s` again. */
  function Split(s: string, sep: char): (r: seq<string>)
    ensures |r| >= 1
    ensures forall i :: 0 <= i < |r| ==> sep !in r[i]
    ensures Join(r, [sep]) == s
    decreases |s|
  {
    if |s| == 0 then [""]
    else
      var rest := Split(s[1..], sep);
      if s[0] == sep then
        assert ([""] + rest)[1..] == rest;
        [""] + rest
      else
        var r := [[s[0]] + rest[0]] + rest[1..];
        assert r[1..] == rest[1..];
        assert Join(r, [sep]) == [s[0]] + Join(rest, [sep]);
        assert s == [s[0]] + s[1..];
        r
  }

  /** Splitting undoes joining when no piece contains the separator. */
  lemma {:induction false} SplitJoin(ps: seq<string>, sep: char)
    requires |ps| >= 1
    requires forall i :: 0 <= i < |ps| ==> sep !in ps[i]
    ensures Split(Join(ps, [sep]), sep) == ps
    decreases |ps|, |ps[0]|
  {
    if |ps[0]| == 0 {
      if |ps| == 1 {
      } else {
        var tail := Join(ps[1..], [sep]);
        assert Join(ps, [sep]) == [sep] + tail;
        assert ([sep] + tail)[1..] == tail;
        SplitJoin(ps[1..], sep);
        assert [""] + ps[1..] == ps;
      }
    } else {
      var c := ps[0][0];
      var ps' := [ps[0][1..]] + ps[1..];
      assert ps'[1..] == ps[1..];
      assert c != sep by { assert c in ps[0]; }
      forall i | 0 <= i < |ps'| ensures sep !in ps'[i] {
        if i == 0 {
          assert forall x :: x in ps[0][1..] ==> x in ps[0];
        } else {
          assert ps'[i] == ps[i];
        }
      }
      assert Join(ps, [sep]) == [c] + Join(ps', [sep]) by {
        assert ps[0] == [c] + ps[0][1..];
      }
      assert ([c] + Join(ps', [sep]))[1..] == Join(ps', [sep]);
      SplitJoin(ps', sep);
      assert [[c] + ps'[0]] + ps'[1..] == ps by {
        assert [c] + ps'[0] == ps[0];
        assert ps == [ps[0]] + ps[1..];
      }
    }
  }
}

=== FILE: types.dfy ===
/** The records of the application (`types.ts`). */
module Types {
  import opened Common

  /** One ingredient line of a recipe. The optional fields are absent unless the
      recipe generator supplied them. */
  datatype Ingredient = Ingredient(
    name: string,
    quantity: Option<string>,
    isMissing: Option<bool>,
    substitutions: Option<seq<string>>)

  datatype Difficulty = Easy | Medium | Hard

  /** A generated recipe. Identity is `id`; `calories` is a JSON number, modelled as an
      integer because nothing computes with it. */
  datatype Recipe = Recipe(
    id: string,
    title: string,
    image: string,
    difficulty: Difficulty,
    prepTime: string,
    calories: int,
    ingredients: seq<Ingredient>,
    steps: seq<string>,
    dietaryTags: seq<string>)

  datatype DietaryRestriction = NoRestriction | Vegetarian | Vegan | Keto | GlutenFree | Paleo

  /** The string each restriction is written as in the source (`'None'`, `'Gluten-Free'`, ...);
      only the absence of a restriction is spelled `None`, which is what the prompt
      builder tests for. */
  function RestrictionName(f: DietaryRestriction): (r: string)
    ensures r == "None" <==> f == NoRestriction
    ensures r != ""
  {
    match f
    case NoRestriction => "None"
    case Vegetarian => "Vegetarian"
    case Vegan => "Vegan"
    case Keto => "Keto"
    case GlutenFree => "Gluten-Free"
    case Paleo => "Paleo"
  }

  /** Reads a restriction back from its name; anything else is not a restriction. */
  function ParseRestriction(s: string): (r: Option<DietaryRestriction>)
    ensures r.Some? ==> RestrictionName(r.value) == s
  {
    if s == "None" then Some(NoRestriction)
    else if s == "Vegetarian" then Some(Vegetarian)
    else if s == "Vegan" then Some(Vegan)
    else if s == "Keto" then Some(Keto)
    else if s == "Gluten-Free" then Some(GlutenFree)
    else if s == "Paleo" then Some(Paleo)
    else None
  }

  /** Every restriction's name reads back as that restriction, so names are distinct. */
  lemma RestrictionNameRoundTrip(f: DietaryRestriction)
    ensures ParseRestriction(RestrictionName(f)) == Some(f)
  {
  }

  /** The single application state record (`AppState`). */
  datatype AppState = AppState(
    scannedIngredients: seq<string>,
    pantryIngredients: seq<string>,
    recipes: seq<Recipe>,
    favoriteRecipes: seq<Recipe>,
    shoppingList: seq<string>,
    filter: DietaryRestriction,
    isScanning: bool,
    selectedRecipe: Option<Recipe>)

  /** Whether some recipe in `rs` has identity `id` (`rs.some(r => r.id === id)`). */
  predicate HasId(rs: seq<Recipe>, id: string) {
    exists i :: 0 <= i < |rs| && rs[i].id == id
  }

  /** No two recipes share an id. */
  predicate UniqueIds(rs: seq<Recipe>) {
    forall i, j :: 0 <= i < j < |rs| ==> rs[i].id != rs[j].id
  }
}
